=== FILE: README.md ===
# heroject activity layer and project access guard, modelled in Dafny

This project models two pieces of the heroject collaboration application.

1. **The activity and notification layer** (`apps/actions/models.py`):
   - the action-type catalog and its lookup by name;
   - `ActionManager.new_action`, which records that a user acted on an object, optionally towards a target;
   - the two message templates, `Action._construct_action_message` and `Notification._construct_notification_message`;
   - `FollowManager.create_new`;
   - `InvitationManager.new` and `active`, plus `Invitation.message` and `add_user`.
2. **The project access guard** (`apps/projects/decorators.py`): the decision the inner `_control` of `has_access_project` makes. It either answers 404, redirects, or calls the wrapped view with the pk and the object.

Everything is immutable data and pure functions:

- `Store` holds the live objects with their display forms, the action-type catalog, the action log, the follow table, the invitation table and the `people` membership of every project.
- A generic foreign key is an `EntityRef`: a model class and a textual object id. A live object is an `Entity`: a model class and an integer primary key. A factory writes the key as decimal text (`smart_unicode(obj.id)`). Dereferencing converts it back with `int()` (`Decimal.PyInt`) and looks the object up among the live ones. `Decimal.ParseFormatRoundTrip` and `Decimal.PyIntFormatRoundTrip` prove that the written key converts back to itself. `Entities.ResolveRefOf` proves that a reference made from an object dereferences to that object for as long as it exists.
- Python's `"%s" % None` renders the text "None" (`Text.PyStr`). `unicode.strip()` removes Python 2.7 Unicode whitespace (`Text.Strip`). The byte-string/unicode mixing of Python 2 formatting is not modelled; see "## Left out".
- The translation function `_` is the identity. The display forms of users, profiles and objects are opaque strings.
- Exceptions the code raises become `Err` values of a `Result`. These are `DoesNotExist` and `MultipleObjectsReturned` from the catalog `.get`, and `NameError` and `IntegrityError` from `add_user`. For the guard they are the `Raised` outcome. That covers the `UnboundLocalError` for a missing `id_key` and the failed lookup without a class, and also the `ValueError` that `get_object_or_404` lets through when `int()` rejects the pk.
- The guard's object store is keyed by integer primary key. `get_object_or_404(klass, pk=pk)` converts the pk with Python 2 `int()` (`Decimal.PyInt`). That conversion ignores surrounding whitespace, takes an optional sign and needs at least one digit. A pk such as "abc" or "" raises `ValueError`, and a valid one that names no row is the 404.

Behaviour reproduced as the code is written:

- In the fallback action template, an unset preposition appears as the word "None": "erhan has created None Project X".
- The notification template always prints "you", the preposition and the target, even when they render as "None". It is not stripped.
- `add_user` tests `isinstance(..., Project)` and then evaluates the name `Organization`, which the file never imports. So every target that is not an existing project ends in a `NameError`: organizations, other classes and dangling references alike. `add_user` does not change `is_accepted` or `is_read`.
- `active()` filters the whole invitation table by `is_read == False`. It does not filter by receiver. The table is listed newest first (`ordering = ('-date_sent',)` with `date_sent` set on save), so a new invitation comes before all earlier ones.
- `new_action` sends no notification, although its docstring says it does.
- `create_new` never checks for an existing follow.
- A model instance is always truthy. So `if target_object:` and the `target_obj` half of `if prep and target_obj:` test only presence: the object is given, or the reference resolves.
- `add_user` on a project invitation with no receiver asks the ORM to store a missing member. The database refuses this, so it is modelled as `IntegrityError`.

## Model

| member | source | states |
|---|---|---|
| `Decimal.NatToString` | apps/actions/models.py:44 | `smart_unicode(obj.id)` writes a non-empty run of decimal digits with no leading zero |
| `Decimal.ParseFormatRoundTrip` | apps/actions/models.py:44 | the digits `smart_unicode(obj.id)` writes for a key have that key as their decimal value |
| `Decimal.FormatInjective` | apps/actions/models.py:44 | distinct keys are written as distinct id strings |
| `Decimal.PyInt` | apps/projects/decorators.py:14 | the pk filter's `int()` reads a plain digit run as its value and rejects empty or all-whitespace text; it returns a value only when something is left after stripping (rejection of other text and the signed value are the lemmas below) |
| `Decimal.PyIntRejectsForeign` | apps/projects/decorators.py:14 | `int()` rejects any text holding a character that is neither whitespace, an ASCII digit nor a sign, such as "abc" |
| `Decimal.PyIntNeedsDigit` | apps/projects/decorators.py:14 | `int()` rejects any text without a digit, such as "+" or " - " |
| `Decimal.PyIntRejectsInnerSpace` | apps/projects/decorators.py:14 | `int()` rejects text where whitespace follows a digit and is itself followed by something else, such as "5 5" |
| `Decimal.PyIntSigned` | apps/projects/decorators.py:14 | with whitespace around it and between the sign and the digits, a signed digit run converts to its value, negated for '-', so "-5" and " - 5 " give -5 |
| `Decimal.PyIntFormatRoundTrip` | apps/projects/decorators.py:14 | `int()` of the decimal text of a key is that key, so a URL carrying an id reaches the row |
| `Decimal.PyIntIgnoresPadding` | apps/projects/decorators.py:14 | whitespace around a digit run does not change what `int()` returns |
| `Entities.RefOf` | apps/actions/models.py:43-44 | a stored reference keeps the object's class and an id that `int()` converts to its key |
| `Entities.Resolve` | apps/actions/models.py:73-75 | dereferencing yields a live object of the referenced class whose key `int()` reads from the id, or nothing when no such object exists |
| `Entities.ResolveRefOf` | apps/actions/models.py:73-81 | a reference made from an object dereferences to exactly that object while it exists and to nothing after it is deleted |
| `Entities.RefOfInjective` | apps/actions/models.py:42-49 | distinct objects never share a reference |
| `Text.Strip` | apps/actions/models.py:105 | the stripped message has no whitespace at either end, is no longer than the input, and an already trimmed string is unchanged |
| `Text.StripMargins` | apps/actions/models.py:105 | strip removes only whitespace margins: the result is a contiguous piece of the input and everything outside it is whitespace |
| `Text.StripIdempotent` | apps/actions/models.py:105 | stripping twice is stripping once |
| `Text.StripKeepsCore` | apps/actions/models.py:105 | a middle part with non-whitespace ends survives stripping intact; only the outer margins are trimmed |
| `ActionLog.LookupActionType` | apps/actions/models.py:40 | `.get(name=key)` yields a catalog entry named `key` exactly when one entry has that name; DoesNotExist exactly when none does; MultipleObjectsReturned exactly when several do |
| `ActionLog.LookupUniqueCatalog` | apps/actions/models.py:22-40 | with unique names (the catalog used as a map) the lookup succeeds iff some entry has the name |
| `ActionLog.NewAction` | apps/actions/models.py:33-53 | a failed lookup aborts with the store untouched; otherwise exactly one action is appended; it keeps the user, has the catalog entry named by the key, always has an action reference to the object, and has a target reference iff a target object was given |
| `ActionLog.NewActionRefsResolve` | apps/actions/models.py:42-49 | the recorded action and target references dereference to the objects passed in while they exist; with no target, the target stays unset |
| `ActionLog.RenderAction` | apps/actions/models.py:97-105 | the two-branch template, chosen on a truthy preposition and a resolving target, always yields a string with no whitespace at either end |
| `ActionLog.ActionMessage` | apps/actions/models.py:93-105 | the action message has no leading or trailing whitespace |
| `ActionLog.RenderActionTargetBranch` | apps/actions/models.py:97-101 | with a truthy preposition and a resolving target the message is "U has V O P T", unchanged by strip when U and T have non-whitespace ends |
| `ActionLog.RenderActionFallbackBranch` | apps/actions/models.py:102-105 | otherwise, when U starts and O ends with a non-whitespace character, the message is exactly "U has V P O" with P rendered by `%s` |
| `ActionLog.RenderActionShowsNone` | apps/actions/models.py:103 | when U starts and O ends with a non-whitespace character, an unset preposition gives exactly "U has V None O", whether or not there is a target |
| `ActionLog.RenderActionMentions` | apps/actions/models.py:97-105 | in either branch the message contains "has V" and the object's display when that display has non-whitespace ends |
| `ActionLog.RecordedActionMentions` | apps/actions/models.py:33-53 | the message of an action just recorded by `new_action` names its verb, and also its still-existing object whenever the object's display form begins and ends with a non-whitespace character |
| `Notifications.NotificationText` | apps/actions/models.py:168-169 | for every preposition and target, the notification text is the action message's first template with "you" as the object, without the branch and without strip |
| `Notifications.ConstructNotificationMessage` | apps/actions/models.py:164-172 | the message field is set from the action's user, verb, preposition and target; receiver, sender, target and read flag are kept |
| `Notifications.NotificationMentions` | apps/actions/models.py:168-169 | the notification starts with the user and always contains " you ", the rendered preposition and the rendered target |
| `Notifications.NotificationIsActionAddressedToYou` | apps/actions/models.py:164-172 | with a truthy preposition and a resolving target, the notification equals the action message with "you" as the object, provided the user's display U starts and the target's display T ends with a non-whitespace character |
| `Notifications.TemplatesDivergeWithoutPreposition` | apps/actions/models.py:168-169 | for a non-empty user display U whose first character is not whitespace and no preposition, the action message reads "U has V None you" and the notification "U has V you None T", and they differ |
| `Notifications.NotificationForRecordedAction` | apps/actions/models.py:164-172 | for an action recorded with an existing target, the notification names that target's display form |
| `Follows.CreateNew` | apps/actions/models.py:110-120 | the appended follow is active, belongs to the user and refers to the object; nothing else in the store changes |
| `Follows.CreateNewAddsOne` | apps/actions/models.py:110-120 | each call adds one more active follow of the object, whatever exists already |
| `Follows.CreateNewTwice` | apps/actions/models.py:110-120 | following twice leaves two identical rows and two more active follows |
| `Follows.FollowResolves` | apps/actions/models.py:114-116 | the follow's reference dereferences to the followed object |
| `Invitations.NewInvitation` | apps/actions/models.py:184-194 | the new invitation is unread and unaccepted, has the given sender and receiver and refers to the object; it heads the invitation table, and nothing else changes |
| `Invitations.Message` | apps/actions/models.py:224-225 | the message is "S has invited you to X", with X the display form of the target, or "None" when the target is unset or deleted |
| `Invitations.Active` | apps/actions/models.py:177-181 | the result holds exactly the unread invitations |
| `Invitations.ActiveAppend` | apps/actions/models.py:177-181 | the filter keeps table order: it distributes over concatenation |
| `Invitations.ActiveIdempotent` | apps/actions/models.py:177-181 | filtering the active invitations again changes nothing |
| `Invitations.ActiveAfterNew` | apps/actions/models.py:177-219 | a new invitation is active and is listed first, followed by the earlier active ones in their previous order |
| `Invitations.NewInvitationMessage` | apps/actions/models.py:224-225 | a new invitation's message is "S has invited you to X" with X the target's display form |
| `Invitations.MessageAfterTargetDeleted` | apps/actions/models.py:224-225 | once the target is deleted the message ends in "None" |
| `Invitations.TargetProject` | apps/actions/models.py:230 | a project id is found iff the target resolves to an existing project |
| `Invitations.AddUser` | apps/actions/models.py:227-235 | NameError iff the target is not an existing project; IntegrityError iff it is one but there is no receiver; otherwise the receiver joins that project's members, other projects' members stay as they were, and the invitation table is untouched |
| `Invitations.AddUserIdempotent` | apps/actions/models.py:230-232 | a second `add_user` on the same invitation changes nothing |
| `Invitations.InviteThenAddUser` | apps/actions/models.py:184-232 | inviting a profile to an existing project and calling `add_user` makes the profile a member; the invitation stays unread and unaccepted |
| `Invitations.AddUserNonProjectFails` | apps/actions/models.py:233 | an invitation to an existing organization or other non-project object fails with NameError |
| `ProjectAccess.IdKey` | apps/projects/decorators.py:9-10 | the id key is the class name with every ASCII letter lower-cased, followed by "_id" |
| `ProjectAccess.ProjectIdKey` | apps/projects/decorators.py:9-10 | the keys for Project, Task and Discussion are "project_id", "task_id" and "discussion_id" |
| `ProjectAccess.IdKeyCaseInsensitive` | apps/projects/decorators.py:10 | class names that differ only in case give the same id key |
| `ProjectAccess.SelectPk` | apps/projects/decorators.py:12 | a truthy positional pk takes precedence; otherwise the keyword argument named by the id key is used, if present |
| `ProjectAccess.Lookup` | apps/projects/decorators.py:14 | `get_object_or_404` raises ValueError exactly when a pk was chosen and `int()` rejects it; it finds a row exactly when the pk converts to an integer under which the class has a row, and then returns that row; otherwise it is the 404 |
| `ProjectAccess.MayAccess` | apps/projects/decorators.py:16-22 | a project must be one of the user's projects; a task or discussion must belong to one; any other class passes |
| `ProjectAccess.MayAccessMonotone` | apps/projects/decorators.py:16-22 | gaining projects never takes access away |
| `ProjectAccess.ProjectCallNamesMemberPk` | apps/projects/decorators.py:12-24 | when every row is stored under its own key, a project view runs only with a pk whose `int()` is the key of the project it receives, and that project is one of the user's |
| `ProjectAccess.ProjectReachableById` | apps/projects/decorators.py:12-24 | a project the user belongs to, addressed by the decimal text of its id, reaches the view with that project |
| `ProjectAccess.Control` | apps/projects/decorators.py:8-24 | no class means an exception (the unbound `id_key` iff the pk is falsy); with a class, an exception exactly when the chosen pk is rejected by `int()`, and then it is ValueError; a missing object means NotFound; otherwise Redirect iff the user may not access the object and Call(pk, object) iff they may; a project needs membership, a task or discussion needs its project's membership, any other class passes |
| `ProjectAccess.CallIffAllowed` | apps/projects/decorators.py:14-24 | the view runs iff the chosen pk converts to an integer, the class has a row under it, and the membership rule allows that row |

## Left out

- Persistence: `save()`, ContentType lookup and caching, and the database. The store is a value, and each factory returns the new store.
- `action_time` and `date_sent` are `auto_now` timestamps that need the wall clock. The invitation table is instead kept newest first, which is the `-date_sent` order as long as only `new` saves invitations. Ties between equal timestamps are not modelled.
- `ip_address` is never set by the code.
- Field lengths (`max_length` on names, verbs, prepositions and the 300-character message) are not enforced. These checks belong to form validation or the database.
- `SET_NULL` on user deletion: only the nullable `user` field itself is modelled.
- Translation `_`/`ugettext` is the identity. `smart_unicode` is decimal formatting of the integer key.
- Entities.Resolve: a stored generic-reference id is converted with `int()` (`Decimal.PyInt`), but an id that `int()` rejects raises `ValueError` in the code, where the model treats it as unresolvable. Factories only ever write canonical digits, so no stored reference reaches that case.
- Decimal.PyInt: accepts ASCII digits only. Python 2 `int()` on a unicode string also reads other Unicode decimal digits, so such a pk raises `ValueError` here but not in the code. Values beyond the machine word (Python `long`) need no special case, because integers are unbounded here.
- `ProjectAccess.IdKey`: lower-cases ASCII letters only, as Python 2 `str.lower()` does for class names. Unicode case mapping is not modelled.
- `ProjectAccess.Control`:
  - The request, `*args` and `**kwargs` are passed through unchanged, so they are left out of `Call`.
  - `redirect_url` is a given string. A decorator used without one is not modelled.
  - `request.user.projects` is a given set of project ids.
- Django `redirect`, `get_object_or_404` and `functools.wraps` become constructors of `Outcome`.
- ActionLog.ActionMessage: rows hold their action type and user by value. In the code these are foreign keys that are read again at render time. So editing a verb or preposition, or renaming a user, changes existing messages there but not here. Deleting an action type, which cascades to its actions, is not modelled either.
- Notifications.ConstructNotificationMessage: reads the action's type and user by value, with the same consequence as for `ActionLog.ActionMessage`.
- ActionLog.ActionMessage: user display forms are assumed to be ASCII. The templates at apps/actions/models.py:101 and 103 are byte strings and render the user through `str()`, which is UTF-8. The unicode verb then forces an ASCII decode, so a non-ASCII username raises `UnicodeDecodeError` in the code. The model returns a message.
- Notifications.ConstructNotificationMessage: user display forms are assumed to be ASCII, for the same reason (the byte-string template at apps/actions/models.py:168). A non-ASCII username raises `UnicodeDecodeError` in the code.
- Profile display forms are opaque: `Profile.__unicode__` is not part of this model.
- Notifications.ConstructNotificationMessage: returns the notification with its new message instead of saving it. The code assigns `self.message`, calls `self.save()` itself (apps/actions/models.py:171-172) and returns None. Notifications are not part of the store, so there is nothing for the save to write to here.
- `static/js/custom.js` is jQuery event handling and AJAX. It has no logic to state.

=== FILE: action_log.dfy ===
/** The action log: catalog lookup, `ActionManager.new_action` and
    `Action._construct_action_message`. */
module ActionLog {
  import opened Results
  import opened Text
  import opened Decimal
  import opened Entities
  import opened ActionModels

  /** What `ActionType.objects.get(name=key)` raises. */
  datatype LookupError = DoesNotExist | MultipleObjectsReturned

  /** The catalog entries called `key`, in catalog order. */
  function Named(catalog: seq<ActionType>, key: string): (r: seq<ActionType>)
    ensures |r| <= |catalog|
    ensures forall t :: t in r <==> t in catalog && t.name == key
  {
    if catalog == [] then []
    else (if catalog[0].name == key then [catalog[0]] else []) + Named(catalog[1..], key)
  }

  /** `ActionType.objects.get(name=key)`: exactly one entry must match, since
      the name column is not declared unique. */
  function LookupActionType(catalog: seq<ActionType>, key: string): (r: Result<ActionType, LookupError>)
    ensures r.Ok? ==> r.value in catalog && r.value.name == key
    ensures r == Err(DoesNotExist) <==> forall t :: t in catalog ==> t.name != key
    ensures r == Err(MultipleObjectsReturned) <==> |Named(catalog, key)| > 1
    ensures r.Ok? <==> |Named(catalog, key)| == 1
  {
    var found := Named(catalog, key);
    if |found| == 0 then Err(DoesNotExist)
    else
      assert found[0] in found;
      if |found| == 1 then Ok(found[0]) else Err(MultipleObjectsReturned)
  }

  predicate UniqueNames(catalog: seq<ActionType>) {
    forall i, j :: 0 <= i < j < |catalog| ==> catalog[i].name != catalog[j].name
  }

  lemma {:induction false} NamedNone(catalog: seq<ActionType>, key: string)
    requires forall t :: t in catalog ==> t.name != key
    ensures Named(catalog, key) == []
    decreases |catalog|
  {
    if catalog != [] {
      assert catalog[0] in catalog;
      assert forall t :: t in catalog[1..] ==> t in catalog;
      NamedNone(catalog[1..], key);
    }
  }

  lemma {:induction false} NamedAtMostOne(catalog: seq<ActionType>, key: string)
    requires UniqueNames(catalog)
    ensures |Named(catalog, key)| <= 1
    decreases |catalog|
  {
    if catalog != [] {
      var rest := catalog[1..];
      assert UniqueNames(rest) by {
        forall i, j | 0 <= i < j < |rest| ensures rest[i].name != rest[j].name {
          assert rest[i] == catalog[i + 1] && rest[j] == catalog[j + 1];
        }
      }
      NamedAtMostOne(rest, key);
      if catalog[0].name == key {
        forall t | t in rest ensures t.name != key {
          var j :| 0 <= j < |rest| && rest[j] == t;
          assert catalog[j + 1] == t;
        }
        NamedNone(rest, key);
      }
    }
  }

  /** With names kept unique (the catalog used as a map from name to entry),
      the lookup succeeds exactly when some entry carries the name. */
  lemma LookupUniqueCatalog(catalog: seq<ActionType>, key: string)
    requires UniqueNames(catalog)
    ensures LookupActionType(catalog, key).Ok? <==> exists t :: t in catalog && t.name == key
  {
    NamedAtMostOne(catalog, key);
    if exists t :: t in catalog && t.name == key {
      var t :| t in catalog && t.name == key;
      assert t in Named(catalog, key);
    }
  }

  /** The store after `new_action` together with the action or the exception. */
  datatype Recorded = Recorded(store: Store, outcome: Result<Action, LookupError>)

  /** `ActionManager.new_action(user, action_object, action_key, target_object)`:
      the catalog lookup comes first and aborts the call; otherwise the action
      references its object always and its target only when one is given,
      and is appended to the log. */
  function NewAction(s: Store, user: Option<User>, actionObject: Entity, actionKey: string, targetObject: Option<Entity>): (r: Recorded)
    ensures r.outcome.Err? <==> LookupActionType(s.catalog, actionKey).Err?
    ensures r.outcome == Err(DoesNotExist) <==> forall t :: t in s.catalog ==> t.name != actionKey
    ensures r.outcome.Err? ==> r.store == s
    ensures r.outcome.Ok? ==> r.store == s.(actions := s.actions + [r.outcome.value])
    ensures r.outcome.Ok? ==>
      var a := r.outcome.value;
      && a.user == user
      && a.actionType in s.catalog && a.actionType.name == actionKey
      && a.actionRef.Some? && a.actionRef.value.kind == actionObject.kind
      && PyInt(a.actionRef.value.objectId) == Some(actionObject.id as int)
      && (a.targetRef.Some? <==> targetObject.Some?)
      && (targetObject.Some? ==> a.targetRef.value.kind == targetObject.value.kind
                                 && PyInt(a.targetRef.value.objectId) == Some(targetObject.value.id as int))
  {
    match LookupActionType(s.catalog, actionKey)
    case Err(e) => Recorded(s, Err(e))
    case Ok(actionType) =>
      var target := match targetObject
        case None => None
        case Some(t) => Some(RefOf(t));
      var a := Action(user, Some(RefOf(actionObject)), actionType, target);
      Recorded(s.(actions := s.actions + [a]), Ok(a))
  }

  /** The references of a freshly recorded action dereference to the very
      objects passed in, for as long as they exist. */
  lemma NewActionRefsResolve(s: Store, user: Option<User>, actionObject: Entity, actionKey: string, targetObject: Option<Entity>, live: Registry)
    requires NewAction(s, user, actionObject, actionKey, targetObject).outcome.Ok?
    ensures var a := NewAction(s, user, actionObject, actionKey, targetObject).outcome.value;
            && ResolveOpt(live, a.actionRef) == (if actionObject in live then Some(actionObject) else None)
            && (targetObject.Some? ==>
                  ResolveOpt(live, a.targetRef) == (if targetObject.value in live then targetObject else None))
            && (targetObject.None? ==> ResolveOpt(live, a.targetRef) == None)
  {
    ResolveRefOf(live, actionObject);
    if targetObject.Some? {
      ResolveRefOf(live, targetObject.value);
    }
  }

  /** The two action-message templates over rendered display strings: user
      `u`, verb, action object `obj`, the nullable preposition, and the target
      display when the target resolves. The result is stripped. */
  function RenderAction(u: string, verb: string, obj: string, prep: Option<string>, target: Option<string>): (r: string)
    ensures Trimmed(r)
  {
    if Truthy(prep) && target.Some? then
      Strip(TargetTemplate(u, verb, obj, prep.value, target.value))
    else
      Strip(FallbackTemplate(u, verb, obj, prep))
  }

  /** `"%s has %s %s %s %s" % (user, verb, action_object, prep, target)`. */
  function TargetTemplate(u: string, verb: string, obj: string, prep: string, target: string): string {
    u + " has " + verb + " " + obj + " " + prep + " " + target
  }

  lemma FallbackTemplateNone(u: string, verb: string, obj: string)
    ensures FallbackTemplate(u, verb, obj, None) == u + " has " + verb + " None " + obj
  {
    var w := u + " has " + verb;
    assert FallbackTemplate(u, verb, obj, None) == w + (" " + "None" + " ") + obj;
    assert " " + "None" + " " == " None ";
    assert u + " has " + verb + " None " + obj == w + " None " + obj;
  }

  lemma TargetTemplateSolid(u: string, verb: string, obj: string, p: string, t: string)
    requires u != [] && !IsSpace(u[0])
    requires t != [] && !IsSpace(t[|t| - 1])
    ensures Strip(TargetTemplate(u, verb, obj, p, t)) == TargetTemplate(u, verb, obj, p, t)
  {
    var s := TargetTemplate(u, verb, obj, p, t);
    var head := u + " has " + verb + " " + obj + " " + p + " ";
    assert s == head + t;
    assert head[0] == u[0];
    assert s[0] == u[0];
    assert s[|s| - 1] == t[|t| - 1];
    assert Trimmed(s);
  }

  /** `"%s has %s %s %s" % (user, verb, prep, action_object)`. */
  function FallbackTemplate(u: string, verb: string, obj: string, prep: Option<string>): string {
    u + " has " + verb + " " + PyStr(prep) + " " + obj
  }

  /** `Action._construct_action_message` (and `Action.__unicode__`); the
      translation step is the identity. */
  function ActionMessage(live: Registry, a: Action): (r: string)
    ensures Trimmed(r)
  {
    RenderAction(UserDisplay(a.user), a.actionType.verb, Display(live, a.actionRef),
                 a.actionType.preposition, ResolvedDisplay(live, a.targetRef))
  }

  /** Preposition set and target resolving: "U has V O P T", and nothing is
      lost to stripping when the user starts and the target ends with a
      non-whitespace character. */
  lemma RenderActionTargetBranch(u: string, verb: string, obj: string, prep: Option<string>, t: string)
    requires Truthy(prep)
    requires u != [] && !IsSpace(u[0])
    requires t != [] && !IsSpace(t[|t| - 1])
    ensures RenderAction(u, verb, obj, prep, Some(t)) == TargetTemplate(u, verb, obj, prep.value, t)
  {
    var p := prep.value;
    assert RenderAction(u, verb, obj, prep, Some(t)) == Strip(TargetTemplate(u, verb, obj, p, t));
    TargetTemplateSolid(u, verb, obj, p, t);
  }

  /** Preposition unset or empty, or target not resolving: "U has V P O" with
      the preposition rendered by `%s`. */
  lemma RenderActionFallbackBranch(u: string, verb: string, obj: string, prep: Option<string>, target: Option<string>)
    requires !(Truthy(prep) && target.Some?)
    requires u != [] && !IsSpace(u[0])
    requires obj != [] && !IsSpace(obj[|obj| - 1])
    ensures RenderAction(u, verb, obj, prep, target) == FallbackTemplate(u, verb, obj, prep)
  {
    var mid := " has " + verb + " " + PyStr(prep) + " ";
    assert FallbackTemplate(u, verb, obj, prep) == u + mid + obj;
    StripSolidEnds(u, mid, obj);
  }

  /** An action type without a preposition puts the literal word "None"
      between the verb and the object, whether or not there is a target. */
  lemma RenderActionShowsNone(u: string, verb: string, obj: string, target: Option<string>)
    requires u != [] && !IsSpace(u[0])
    requires obj != [] && !IsSpace(obj[|obj| - 1])
    ensures RenderAction(u, verb, obj, None, target) == u + " has " + verb + " None " + obj
  {
    RenderActionFallbackBranch(u, verb, obj, None, target);
    FallbackTemplateNone(u, verb, obj);
  }

  /** "has V ... O" mentions both "has V" and "O". */
  lemma CoreMentions(verb: string, x: string, obj: string)
    ensures Contains("has " + verb + x + obj, "has " + verb)
    ensures Contains("has " + verb + x + obj, obj)
  {
    ContainsMiddle([], "has " + verb, x + obj);
    assert [] + ("has " + verb) + (x + obj) == "has " + verb + x + obj;
    ContainsMiddle("has " + verb + x, obj, []);
    assert "has " + verb + x + obj + [] == "has " + verb + x + obj;
  }

  lemma CoreSolid(verb: string, x: string, obj: string)
    requires Solid(obj)
    ensures Solid("has " + verb + x + obj)
  {
    var c := "has " + verb + x + obj;
    assert c[0] == 'h';
    assert c[|c| - 1] == obj[|obj| - 1];
  }

  lemma TargetTemplateMentions(u: string, verb: string, obj: string, p: string, t: string)
    requires Solid(obj)
    ensures Contains(Strip(TargetTemplate(u, verb, obj, p, t)), "has " + verb)
    ensures Contains(Strip(TargetTemplate(u, verb, obj, p, t)), obj)
  {
    var core := "has " + verb + " " + obj;
    var tail := " " + p + " " + t;
    assert TargetTemplate(u, verb, obj, p, t) == (u + " ") + core + tail;
    CoreSolid(verb, " ", obj);
    StripKeepsCore(u + " ", core, tail);
    ContainsMiddle(TrimLeft(u + " "), core, TrimRight(tail));
    CoreMentions(verb, " ", obj);
    ContainsTransitive(Strip(TargetTemplate(u, verb, obj, p, t)), core, "has " + verb);
    ContainsTransitive(Strip(TargetTemplate(u, verb, obj, p, t)), core, obj);
  }

  lemma FallbackTemplateMentions(u: string, verb: string, obj: string, prep: Option<string>)
    requires Solid(obj)
    ensures Contains(Strip(FallbackTemplate(u, verb, obj, prep)), "has " + verb)
    ensures Contains(Strip(FallbackTemplate(u, verb, obj, prep)), obj)
  {
    var x := " " + PyStr(prep) + " ";
    var core := "has " + verb + x + obj;
    assert FallbackTemplate(u, verb, obj, prep) == (u + " ") + core + [];
    CoreSolid(verb, x, obj);
    StripKeepsCore(u + " ", core, []);
    ContainsMiddle(TrimLeft(u + " "), core, TrimRight([]));
    CoreMentions(verb, x, obj);
    ContainsTransitive(Strip(FallbackTemplate(u, verb, obj, prep)), core, "has " + verb);
    ContainsTransitive(Strip(FallbackTemplate(u, verb, obj, prep)), core, obj);
  }

  /** Whatever the displays look like, stripping never eats into the verb or
      the action object: "has V" and the object's display both appear in the
      message whenever that display has non-whitespace ends. */
  lemma RenderActionMentions(u: string, verb: string, obj: string, prep: Option<string>, target: Option<string>)
    requires Solid(obj)
    ensures Contains(RenderAction(u, verb, obj, prep, target), "has " + verb)
    ensures Contains(RenderAction(u, verb, obj, prep, target), obj)
  {
    if Truthy(prep) && target.Some? {
      TargetTemplateMentions(u, verb, obj, prep.value, target.value);
    } else {
      FallbackTemplateMentions(u, verb, obj, prep);
    }
  }

  /** The message of a recorded action names its verb and its object, as
      long as the object still exists and displays with non-whitespace ends. */
  lemma RecordedActionMentions(s: Store, user: Option<User>, actionObject: Entity, actionKey: string, targetObject: Option<Entity>)
    requires NewAction(s, user, actionObject, actionKey, targetObject).outcome.Ok?
    requires actionObject in s.live && Solid(s.live[actionObject])
    ensures var a := NewAction(s, user, actionObject, actionKey, targetObject).outcome.value;
            && a.actionType.name == actionKey
            && Contains(ActionMessage(s.live, a), "has " + a.actionType.verb)
            && Contains(ActionMessage(s.live, a), s.live[actionObject])
  {
    var a := NewAction(s, user, actionObject, actionKey, targetObject).outcome.value;
    DisplayRefOf(s.live, actionObject);
    RenderActionMentions(UserDisplay(a.user), a.actionType.verb, s.live[actionObject],
                         a.actionType.preposition, ResolvedDisplay(s.live, a.targetRef));
  }
}

=== FILE: action_models.dfy ===
/** The rows of the activity layer (apps/actions/models.py) and the store that
    holds them. Timestamps and the IP address are not part of the model. */
module ActionModels {
  import opened Results
  import opened Entities

  /** An auth user; its display form is the username. */
  datatype User = User(id: nat, username: string)

  /** A profile; its display form is opaque. */
  datatype Profile = Profile(id: nat, display: string)

  /** A catalog entry: `ActionType(name, verb, preposition)`; the preposition
      column is nullable. */
  datatype ActionType = ActionType(name: string, verb: string, preposition: Option<string>)

  /** A recorded action. Both references are nullable columns; `None` stands
      for an unset content type and object id together. */
  datatype Action = Action(
    user: Option<User>,
    actionRef: Option<EntityRef>,
    actionType: ActionType,
    targetRef: Option<EntityRef>)

  datatype Follow = Follow(follower: User, followed: Option<EntityRef>, isActive: bool)

  datatype Notification = Notification(
    message: string,
    receiver: Profile,
    sender: Option<Profile>,
    targetRef: Option<EntityRef>,
    isRead: bool)

  datatype Invitation = Invitation(
    sender: Profile,
    receiver: Option<Profile>,
    isRead: bool,
    isAccepted: bool,
    target: Option<EntityRef>)

  /** Everything the operations read or write: the live objects, the action
      type catalog, the action log, the follow and invitation tables, and the
      `people` membership of each project (by project id). */
  datatype Store = Store(
    live: Registry,
    catalog: seq<ActionType>,
    actions: seq<Action>,
    follows: seq<Follow>,
    invitations: seq<Invitation>,
    people: map<nat, set<Profile>>)

  /** `"%s" % user` for the nullable `Action.user`. */
  function UserDisplay(u: Option<User>): string {
    match u
    case None => "None"
    case Some(x) => x.username
  }
}

=== FILE: decimal.dfy ===
/** Object ids: `smart_unicode(obj.id)` writes an integer primary key as
    decimal text, and dereferencing a generic reference converts that text
    back to an integer key. */
module Decimal {
  import opened Results
  import opened Text

  predicate IsDigit(c: char) {
    '0' <= c <= '9'
  }

  predicate AllDigits(s: string) {
    forall i :: 0 <= i < |s| ==> IsDigit(s[i])
  }

  function DigitChar(d: nat): (c: char)
    requires d < 10
    ensures IsDigit(c) && c as int - '0' as int == d
  {
    ('0' as int + d) as char
  }

  function DigitValue(c: char): nat
    requires IsDigit(c)
  {
    c as int - '0' as int
  }

  /** `unicode(n)`: the decimal digits of `n`, without leading zeros. */
  function NatToString(n: nat): (s: string)
    ensures s != [] && AllDigits(s)
    ensures |s| > 1 ==> s[0] != '0'
    decreases n
  {
    if n < 10 then [DigitChar(n)] else NatToString(n / 10) + [DigitChar(n % 10)]
  }

  function DigitsValue(s: string): nat
    requires AllDigits(s)
  {
    if s == [] then 0 else DigitsValue(s[..|s| - 1]) * 10 + DigitValue(s[|s| - 1])
  }

  predicate IsSign(c: char) {
    c == '+' || c == '-'
  }

  /** The text `int()` accepts once stripped: an optional sign, which
      Python 2 lets whitespace follow, then a non-empty run of decimal
      digits. */
  predicate IntSyntax(t: string) {
    && t != []
    && var u := if IsSign(t[0]) then TrimLeft(t[1..]) else t;
       u != [] && AllDigits(u)
  }

  /** The number `int()` reads from already stripped text. */
  function SignedDigits(t: string): (r: Option<int>)
    ensures r.Some? <==> IntSyntax(t)
    ensures t != [] && AllDigits(t) ==> r == Some(DigitsValue(t) as int)
  {
    if t == [] then None
    else if IsSign(t[0]) then
      var u := TrimLeft(t[1..]);
      if u != [] && AllDigits(u) then Some(if t[0] == '-' then -(DigitsValue(u) as int) else DigitsValue(u) as int)
      else None
    else if AllDigits(t) then Some(DigitsValue(t) as int)
    else None
  }

  /** `int(s)` on a unicode string in Python 2, in base 10: whitespace around
      the number is ignored, a sign may come first, and what is left must be
      a non-empty run of decimal digits. Anything else raises ValueError,
      here `None`. */
  function PyInt(s: string): (r: Option<int>)
    ensures s != [] && AllDigits(s) ==> r == Some(DigitsValue(s) as int)
    ensures AllSpace(s) ==> r.None?
    ensures r.Some? ==> Strip(s) != []
  {
    if s != [] && AllDigits(s) then
      DigitsSolid(s);
      SignedDigits(Strip(s))
    else if AllSpace(s) then
      TrimAllSpace(s);
      SignedDigits(Strip(s))
    else
      SignedDigits(Strip(s))
  }

  /** The digits written for an id have that id as their value. */
  lemma {:induction false} ParseFormatRoundTrip(n: nat)
    ensures DigitsValue(NatToString(n)) == n
    decreases n
  {
    var s := NatToString(n);
    if n >= 10 {
      ParseFormatRoundTrip(n / 10);
      assert s[..|s| - 1] == NatToString(n / 10);
      assert DigitValue(s[|s| - 1]) == n % 10;
      assert DigitsValue(NatToString(n / 10)) == n / 10;
      assert DigitsValue(s) == (n / 10) * 10 + n % 10;
    } else {
      assert s[..0] == [];
    }
  }

  /** Distinct ids are written as distinct strings. */
  lemma FormatInjective(m: nat, n: nat)
    ensures NatToString(m) == NatToString(n) ==> m == n
  {
    ParseFormatRoundTrip(m);
    ParseFormatRoundTrip(n);
  }

  /** `int(unicode(n))` gives `n` back: the text a generic reference stores
      converts to the integer key of the row it was written from. */
  lemma PyIntFormatRoundTrip(n: nat)
    ensures PyInt(NatToString(n)) == Some(n as int)
  {
    ParseFormatRoundTrip(n);
  }

  /** Whitespace around the digits does not change what `int()` returns, so a
      padded pk names the same row as the bare one. */
  lemma PyIntIgnoresPadding(a: string, d: string, b: string)
    requires AllSpace(a) && AllSpace(b)
    requires d != [] && AllDigits(d)
    ensures PyInt(a + d + b) == Some(DigitsValue(d) as int)
  {
    DigitsSolid(d);
    StripKeepsCore(a, d, b);
    TrimAllSpace(a);
    TrimAllSpace(b);
    assert [] + d + [] == d;
    assert PyInt(a + d + b) == SignedDigits(d);
  }

  /** A sign, optional whitespace and a run of digits, with whitespace
      around, read as the signed value of the digits: Python 2 accepts
      "- 5" as well as "-5". */
  lemma PyIntSigned(a: string, c: char, w: string, d: string, b: string)
    requires AllSpace(a) && AllSpace(w) && AllSpace(b)
    requires c == '+' || c == '-'
    requires d != [] && AllDigits(d)
    ensures PyInt(a + [c] + w + d + b) == Some(if c == '-' then -(DigitsValue(d) as int) else DigitsValue(d) as int)
  {
    var m := [c] + w + d;
    Regroup(a, [c], w, d, b);
    assert m[0] == c;
    assert m[|m| - 1] == d[|d| - 1];
    StripKeepsCore(a, m, b);
    TrimAllSpace(a);
    TrimAllSpace(b);
    assert [] + m + [] == m;
    assert PyInt(a + m + b) == SignedDigits(m);
    SignedDigitsOfSigned(c, w, d);
  }

  lemma Regroup(a: string, x: string, w: string, d: string, b: string)
    ensures a + x + w + d + b == a + (x + w + d) + b
  {
  }

  lemma SignedDigitsOfSigned(c: char, w: string, d: string)
    requires AllSpace(w)
    requires c == '+' || c == '-'
    requires d != [] && AllDigits(d)
    ensures SignedDigits([c] + w + d) == Some(if c == '-' then -(DigitsValue(d) as int) else DigitsValue(d) as int)
  {
    var m := [c] + w + d;
    assert m[1..] == w + d;
    assert !IsSpace(d[0]);
    TrimLeftStopsAt(w, d);
    TrimAllSpace(w);
    assert [] + d == d;
    SignedDigitsAfterSign(m, d);
  }

  lemma SignedDigitsAfterSign(t: string, d: string)
    requires t != [] && (t[0] == '+' || t[0] == '-')
    requires TrimLeft(t[1..]) == d && d != [] && AllDigits(d)
    ensures SignedDigits(t) == Some(if t[0] == '-' then -(DigitsValue(d) as int) else DigitsValue(d) as int)
  {
  }

  /** A character that is neither whitespace, a digit nor a sign makes
      `int()` fail, wherever it stands. */
  lemma PyIntRejectsForeign(s: string, k: nat)
    requires k < |s|
    requires !IsSpace(s[k]) && !IsDigit(s[k]) && s[k] != '+' && s[k] != '-'
    ensures PyInt(s).None?
  {
    StripMargins(s);
    MarginsRejectForeign(s, |s| - |TrimLeft(s)|, Strip(s), k);
  }

  /** Text without a digit, a bare sign included, makes `int()` fail. */
  lemma PyIntNeedsDigit(s: string)
    requires forall k :: 0 <= k < |s| ==> !IsDigit(s[k])
    ensures PyInt(s).None?
  {
    StripMargins(s);
    MarginsNeedDigit(s, |s| - |TrimLeft(s)|, Strip(s));
  }

  /** Whitespace between a digit and later non-whitespace makes `int()` fail,
      so "5 5" is rejected. */
  lemma PyIntRejectsInnerSpace(s: string, i: nat, j: nat, k: nat)
    requires i < j < k < |s|
    requires IsDigit(s[i]) && IsSpace(s[j]) && !IsSpace(s[k])
    ensures PyInt(s).None?
  {
    StripMargins(s);
    MarginsRejectInnerSpace(s, |s| - |TrimLeft(s)|, Strip(s), i, j, k);
  }

  lemma MarginsRejectForeign(s: string, p: nat, r: string, k: nat)
    requires Margins(s, p, r) && k < |s|
    requires !IsSpace(s[k]) && !IsDigit(s[k]) && !IsSign(s[k])
    ensures !IntSyntax(r)
  {
    MarginsInterior(s, p, r, k);
    MarginsIndex(s, p, r, k);
    ForeignBreaksSyntax(r, k - p);
  }

  lemma MarginsNeedDigit(s: string, p: nat, r: string)
    requires Margins(s, p, r)
    requires forall k :: 0 <= k < |s| ==> !IsDigit(s[k])
    ensures !IntSyntax(r)
  {
    forall m | 0 <= m < |r|
      ensures !IsDigit(r[m])
    {
      MarginsIndex(s, p, r, p + m);
    }
    NoDigitBreaksSyntax(r);
  }

  lemma MarginsRejectInnerSpace(s: string, p: nat, r: string, i: nat, j: nat, k: nat)
    requires Margins(s, p, r) && i < j < k < |s|
    requires IsDigit(s[i]) && IsSpace(s[j]) && !IsSpace(s[k])
    ensures !IntSyntax(r)
  {
    assert !IsSpace(s[i]);
    MarginsInterior(s, p, r, i);
    MarginsInterior(s, p, r, k);
    MarginsIndex(s, p, r, i);
    MarginsIndex(s, p, r, j);
    InnerSpaceBreaksSyntax(r, i - p, j - p);
  }

  lemma ForeignBreaksSyntax(t: string, k: nat)
    requires k < |t|
    requires !IsSpace(t[k]) && !IsDigit(t[k]) && !IsSign(t[k])
    ensures !IntSyntax(t)
  {
    if IsSign(t[0]) {
      var v := t[1..];
      assert v[k - 1] == t[k];
      TrimLeftCut(v);
      CutNotDigits(v, TrimLeft(v), k - 1);
    }
  }

  lemma NoDigitBreaksSyntax(t: string)
    requires forall k :: 0 <= k < |t| ==> !IsDigit(t[k])
    ensures !IntSyntax(t)
  {
    if t != [] && IsSign(t[0]) {
      var v := t[1..];
      var u := TrimLeft(v);
      if u != [] {
        assert u[0] == t[1 + |v| - |u|];
      }
    }
  }

  lemma InnerSpaceBreaksSyntax(t: string, i: nat, j: nat)
    requires i < j < |t|
    requires IsDigit(t[i]) && IsSpace(t[j])
    ensures !IntSyntax(t)
  {
    SpaceNotDigit(t[j]);
    if IsSign(t[0]) {
      var v := t[1..];
      assert v[i - 1] == t[i] && v[j - 1] == t[j];
      TrimLeftCut(v);
      CutInnerSpace(v, TrimLeft(v), i - 1, j - 1);
    }
  }

  lemma CutNotDigits(v: string, u: string, k: nat)
    requires LeftCut(v, u) && k < |v| && !IsSpace(v[k]) && !IsDigit(v[k])
    ensures !AllDigits(u)
  {
    CutIndex(v, u, k);
  }

  lemma CutInnerSpace(v: string, u: string, i: nat, j: nat)
    requires LeftCut(v, u) && i < j < |v| && IsDigit(v[i]) && IsSpace(v[j])
    ensures !AllDigits(u)
  {
    assert !IsSpace(v[i]);
    CutKeepsInnerSpace(v, u, i, j);
    SpaceNotDigit(u[j - (|v| - |u|)]);
  }

  lemma SpaceNotDigit(c: char)
    requires IsSpace(c)
    ensures !IsDigit(c)
  {
  }

  /** A run of digits has no whitespace at either end. */
  lemma DigitsSolid(d: string)
    requires d != [] && AllDigits(d)
    ensures Solid(d)
  {
    assert IsDigit(d[0]) && IsDigit(d[|d| - 1]);
  }
}

=== FILE: entities.dfy ===
/** Generic references: a content type (the model class) plus the object id
    stored as text, dereferenced through the set of live objects. */
module Entities {
  import opened Results
  import opened Decimal

  /** The model classes the two core files mention by name, plus any other. */
  datatype ModelClass = Project | Task | Discussion | Organization | OtherClass(name: string)

  /** `klass.__name__`. */
  function ClassName(c: ModelClass): string {
    match c
    case Project => "Project"
    case Task => "Task"
    case Discussion => "Discussion"
    case Organization => "Organization"
    case OtherClass(n) => n
  }

  /** A live object: its class and integer primary key. */
  datatype Entity = Entity(kind: ModelClass, id: nat)

  /** A content-type / object-id pair as stored in a row. */
  datatype EntityRef = EntityRef(kind: ModelClass, objectId: string)

  /** The objects that currently exist, each with its display form
      (what `"%s" % obj` renders). */
  type Registry = map<Entity, string>

  /** The reference a factory stores for a live object: its content type and
      `smart_unicode(obj.id)`. */
  function RefOf(e: Entity): (r: EntityRef)
    ensures r.kind == e.kind && PyInt(r.objectId) == Some(e.id as int)
  {
    PyIntFormatRoundTrip(e.id);
    EntityRef(e.kind, NatToString(e.id))
  }

  /** Dereferencing a reference: the object of that class whose key is the
      stored id, if it still exists. */
  function Resolve(live: Registry, ref: EntityRef): (r: Option<Entity>)
    ensures r.Some? ==> r.value in live && r.value.kind == ref.kind && PyInt(ref.objectId) == Some(r.value.id as int)
    ensures r.None? ==> forall e :: e in live && e.kind == ref.kind ==> PyInt(ref.objectId) != Some(e.id as int)
  {
    match PyInt(ref.objectId)
    case None => None
    case Some(n) =>
      if n >= 0 && Entity(ref.kind, n as nat) in live then Some(Entity(ref.kind, n as nat)) else None
  }

  /** A generic foreign key: an unset reference resolves to nothing. */
  function ResolveOpt(live: Registry, ref: Option<EntityRef>): Option<Entity> {
    match ref
    case None => None
    case Some(x) => Resolve(live, x)
  }

  /** The display form of a resolved generic foreign key, if any. */
  function ResolvedDisplay(live: Registry, ref: Option<EntityRef>): (r: Option<string>)
    ensures r.Some? <==> ResolveOpt(live, ref).Some?
  {
    match ResolveOpt(live, ref)
    case None => None
    case Some(e) => Some(live[e])
  }

  /** `"%s" % content_object`: a dangling or unset reference renders as "None". */
  function Display(live: Registry, ref: Option<EntityRef>): string {
    match ResolvedDisplay(live, ref)
    case None => "None"
    case Some(d) => d
  }

  /** A reference made from an object dereferences to exactly that object
      while it exists, and to nothing once it is gone. */
  lemma ResolveRefOf(live: Registry, e: Entity)
    ensures Resolve(live, RefOf(e)) == (if e in live then Some(e) else None)
  {
  }

  /** Distinct objects get distinct references. */
  lemma RefOfInjective(e1: Entity, e2: Entity)
    ensures RefOf(e1) == RefOf(e2) ==> e1 == e2
  {
    if RefOf(e1) == RefOf(e2) {
      assert PyInt(RefOf(e1).objectId) == Some(e1.id as int);
    }
  }

  lemma DisplayRefOf(live: Registry, e: Entity)
    requires e in live
    ensures Display(live, Some(RefOf(e))) == live[e]
  {
    ResolveRefOf(live, e);
  }
}

=== FILE: follows.dfy ===
/** `FollowManager.create_new`: an unconditional append of an active follow. */
module Follows {
  import opened Results
  import opened Decimal
  import opened Entities
  import opened ActionModels

  /** `Follow.objects.create_new(user, flw_object)`: the new row is active,
      belongs to `user`, refers to `obj`, and is appended without looking for
      an existing one. */
  function CreateNew(s: Store, user: User, obj: Entity): (r: (Store, Follow))
    ensures r.1.follower == user && r.1.isActive
    ensures r.1.followed.Some? && r.1.followed.value.kind == obj.kind
    ensures PyInt(r.1.followed.value.objectId) == Some(obj.id as int)
    ensures r.0 == s.(follows := s.follows + [r.1])
  {
    var f := Follow(user, Some(RefOf(obj)), true);
    (s.(follows := s.follows + [f]), f)
  }

  /** How many active rows say that `user` follows `ref`. */
  function ActiveFollows(follows: seq<Follow>, user: User, ref: EntityRef): nat {
    if follows == [] then 0
    else (if follows[0].isActive && follows[0].follower == user && follows[0].followed == Some(ref) then 1 else 0)
         + ActiveFollows(follows[1..], user, ref)
  }

  lemma {:induction false} ActiveFollowsAppend(follows: seq<Follow>, f: Follow, user: User, ref: EntityRef)
    ensures ActiveFollows(follows + [f], user, ref)
         == ActiveFollows(follows, user, ref)
            + (if f.isActive && f.follower == user && f.followed == Some(ref) then 1 else 0)
    decreases |follows|
  {
    if follows == [] {
      assert follows + [f] == [f];
      assert [f][1..] == [];
    } else {
      assert (follows + [f])[1..] == follows[1..] + [f];
      ActiveFollowsAppend(follows[1..], f, user, ref);
    }
  }

  /** There is no duplicate check: every call adds one more active follow of
      the same object, however many exist already. */
  lemma CreateNewAddsOne(s: Store, user: User, obj: Entity)
    ensures ActiveFollows(CreateNew(s, user, obj).0.follows, user, RefOf(obj))
         == ActiveFollows(s.follows, user, RefOf(obj)) + 1
  {
    ActiveFollowsAppend(s.follows, CreateNew(s, user, obj).1, user, RefOf(obj));
  }

  /** Following the same object twice leaves two identical rows. */
  lemma CreateNewTwice(s: Store, user: User, obj: Entity)
    ensures var (s1, f1) := CreateNew(s, user, obj);
            var (s2, f2) := CreateNew(s1, user, obj);
            && s2.follows == s.follows + [f1, f2]
            && f1 == f2
            && ActiveFollows(s2.follows, user, RefOf(obj)) == ActiveFollows(s.follows, user, RefOf(obj)) + 2
  {
    var (s1, f1) := CreateNew(s, user, obj);
    CreateNewAddsOne(s, user, obj);
    CreateNewAddsOne(s1, user, obj);
  }

  /** The followed reference dereferences to the object while it exists. */
  lemma FollowResolves(s: Store, user: User, obj: Entity)
    requires obj in s.live
    ensures ResolveOpt(s.live, CreateNew(s, user, obj).1.followed) == Some(obj)
  {
    ResolveRefOf(s.live, obj);
  }
}

=== FILE: invitations.dfy ===
/** `InvitationManager.new` / `active` and `Invitation.message` / `add_user`. */
module Invitations {
  import opened Results
  import opened Decimal
  import opened Entities
  import opened ActionModels

  /** `Invitation.objects.new(sender, object, receiver=None)`: a new row that
      is unread and unaccepted. The table is kept in the order
      `Meta.ordering = ('-date_sent',)` lists it: `date_sent` is set on save,
      and only this factory saves invitations here, so the newest row comes
      first. */
  function NewInvitation(s: Store, sender: Profile, obj: Entity, receiver: Option<Profile>): (r: (Store, Invitation))
    ensures r.1.sender == sender && r.1.receiver == receiver
    ensures !r.1.isRead && !r.1.isAccepted
    ensures r.1.target.Some? && r.1.target.value.kind == obj.kind
    ensures PyInt(r.1.target.value.objectId) == Some(obj.id as int)
    ensures r.0 == s.(invitations := [r.1] + s.invitations)
  {
    var inv := Invitation(sender, receiver, false, false, Some(RefOf(obj)));
    (s.(invitations := [inv] + s.invitations), inv)
  }

  /** `Invitation.objects.active()`: the unread rows of the whole table, in
      table order (newest first). */
  function Active(invs: seq<Invitation>): (r: seq<Invitation>)
    ensures |r| <= |invs|
    ensures forall x :: x in r <==> x in invs && !x.isRead
  {
    if invs == [] then []
    else (if !invs[0].isRead then [invs[0]] else []) + Active(invs[1..])
  }

  /** Filtering keeps relative order: it distributes over concatenation. */
  lemma {:induction false} ActiveAppend(a: seq<Invitation>, b: seq<Invitation>)
    ensures Active(a + b) == Active(a) + Active(b)
    decreases |a|
  {
    if a == [] {
      assert a + b == b;
    } else {
      assert (a + b)[0] == a[0];
      assert (a + b)[1..] == a[1..] + b;
      ActiveAppend(a[1..], b);
    }
  }

  lemma {:induction false} ActiveIdempotent(invs: seq<Invitation>)
    ensures Active(Active(invs)) == Active(invs)
    decreases |invs|
  {
    if invs != [] {
      var head := if !invs[0].isRead then [invs[0]] else [];
      ActiveAppend(head, Active(invs[1..]));
      ActiveIdempotent(invs[1..]);
      if !invs[0].isRead {
        assert Active(head) == head + Active(head[1..]);
        assert head[1..] == [];
      }
    }
  }

  /** A new invitation is active and is listed before every earlier active
      one, which all stay active in their previous order. */
  lemma ActiveAfterNew(s: Store, sender: Profile, obj: Entity, receiver: Option<Profile>)
    ensures var (s1, inv) := NewInvitation(s, sender, obj, receiver);
            Active(s1.invitations) == [inv] + Active(s.invitations)
  {
    var (s1, inv) := NewInvitation(s, sender, obj, receiver);
    ActiveAppend([inv], s.invitations);
    assert Active([inv]) == [inv] + Active([inv][1..]);
    assert [inv][1..] == [];
  }

  /** `Invitation.message()`: `"%s has invited you to %s"`. */
  function Message(live: Registry, inv: Invitation): (r: string)
    ensures ResolveOpt(live, inv.target).Some? ==>
              r == inv.sender.display + " has invited you to " + live[ResolveOpt(live, inv.target).value]
    ensures ResolveOpt(live, inv.target).None? ==> r == inv.sender.display + " has invited you to None"
  {
    inv.sender.display + " has invited you to " + Display(live, inv.target)
  }

  /** A fresh invitation to an existing object names that object. */
  lemma NewInvitationMessage(s: Store, sender: Profile, obj: Entity, receiver: Option<Profile>)
    requires obj in s.live
    ensures Message(s.live, NewInvitation(s, sender, obj, receiver).1)
         == sender.display + " has invited you to " + s.live[obj]
  {
    DisplayRefOf(s.live, obj);
  }

  /** Once the target is gone the message reads "... has invited you to None". */
  lemma MessageAfterTargetDeleted(s: Store, sender: Profile, obj: Entity, receiver: Option<Profile>)
    requires obj !in s.live
    ensures Message(s.live, NewInvitation(s, sender, obj, receiver).1) == sender.display + " has invited you to None"
  {
    ResolveRefOf(s.live, obj);
  }

  /** What `add_user` raises: `Organization` is never imported, so evaluating
      the second `isinstance` fails; a missing receiver cannot be stored as a
      project member. */
  datatype AddUserError = NameError | IntegrityError

  /** The id of the project the invitation's target resolves to, if it does. */
  function TargetProject(live: Registry, inv: Invitation): (r: Option<nat>)
    ensures r.Some? <==> ResolveOpt(live, inv.target).Some? && ResolveOpt(live, inv.target).value.kind == Project
    ensures r.Some? ==> ResolveOpt(live, inv.target) == Some(Entity(Project, r.value))
  {
    match ResolveOpt(live, inv.target)
    case Some(e) => if e.kind == Project then Some(e.id) else None
    case None => None
  }

  /** A project's members; a project without a membership entry has none. */
  function Members(people: map<nat, set<Profile>>, pid: nat): set<Profile> {
    if pid in people then people[pid] else {}
  }

  /** `Invitation.add_user()`: a project target gains the receiver as a
      member (a set, so adding twice changes nothing); every other target,
      an organization included, ends in a `NameError`. The invitation itself,
      `is_accepted` included, is left as it was. */
  function AddUser(s: Store, inv: Invitation): (r: Result<Store, AddUserError>)
    ensures r == Err(NameError) <==> TargetProject(s.live, inv).None?
    ensures r == Err(IntegrityError) <==> TargetProject(s.live, inv).Some? && inv.receiver.None?
    ensures r.Ok? ==>
      && r.value.live == s.live && r.value.catalog == s.catalog && r.value.actions == s.actions
      && r.value.follows == s.follows && r.value.invitations == s.invitations
    ensures r.Ok? ==>
      var pid := TargetProject(s.live, inv).value;
      && r.value.people.Keys == s.people.Keys + {pid}
      && Members(r.value.people, pid) == Members(s.people, pid) + {inv.receiver.value}
      && forall q :: q in s.people && q != pid ==> r.value.people[q] == s.people[q]
  {
    var target := TargetProject(s.live, inv);
    if target.None? then Err(NameError)
    else
      var pid := target.value;
      match inv.receiver
      case None => Err(IntegrityError)
      case Some(p) => Ok(s.(people := s.people[pid := Members(s.people, pid) + {p}]))
  }

  /** Accepting the same invitation twice does not duplicate membership. */
  lemma AddUserIdempotent(s: Store, inv: Invitation)
    requires AddUser(s, inv).Ok?
    ensures AddUser(AddUser(s, inv).value, inv) == AddUser(s, inv)
  {
    var s1 := AddUser(s, inv).value;
    var pid := TargetProject(s.live, inv).value;
    assert TargetProject(s1.live, inv) == Some(pid);
    assert s1.people[pid := Members(s1.people, pid) + {inv.receiver.value}] == s1.people;
  }

  /** Inviting someone to an existing project and then calling `add_user`
      makes them a member, while the invitation stays unread and
      unaccepted. */
  lemma InviteThenAddUser(s: Store, sender: Profile, pid: nat, p: Profile)
    requires Entity(Project, pid) in s.live
    ensures var (s1, inv) := NewInvitation(s, sender, Entity(Project, pid), Some(p));
            var r := AddUser(s1, inv);
            && r.Ok?
            && p in Members(r.value.people, pid)
            && r.value.invitations == [inv] + s.invitations
            && !inv.isRead && !inv.isAccepted
  {
    var (s1, inv) := NewInvitation(s, sender, Entity(Project, pid), Some(p));
    ResolveRefOf(s1.live, Entity(Project, pid));
    assert TargetProject(s1.live, inv) == Some(pid);
  }

  /** An invitation to an existing organization (or any non-project object)
      fails in `add_user` instead of adding anyone. */
  lemma AddUserNonProjectFails(s: Store, sender: Profile, e: Entity, receiver: Option<Profile>)
    requires e in s.live && e.kind != Project
    ensures var (s1, inv) := NewInvitation(s, sender, e, receiver);
            AddUser(s1, inv) == Err(NameError)
  {
    var (s1, inv) := NewInvitation(s, sender, e, receiver);
    ResolveRefOf(s1.live, e);
  }
}

=== FILE: notifications.dfy ===
/** `Notification._construct_notification_message`: a fixed template that
    always addresses the receiver as "you" and always prints the preposition
    and the target, present or not. */
module Notifications {
  import opened Results
  import opened Text
  import opened Entities
  import opened ActionModels
  import opened ActionLog

  /** `"%s has %s %s %s %s" % (user, verb, "you", preposition, target)`:
      the action message's first template with "you" as the object, for every
      preposition and target, and never stripped. */
  function NotificationText(u: string, verb: string, prep: Option<string>, target: string): (r: string)
    ensures r == TargetTemplate(u, verb, "you", PyStr(prep), target)
  {
    assert " you " == " " + "you" + " ";
    assert u + " has " + verb + " you " + PyStr(prep) + " " + target
        == u + " has " + verb + (" " + "you" + " ") + PyStr(prep) + " " + target;
    u + " has " + verb + " you " + PyStr(prep) + " " + target
  }

  /** Sets the notification's message from the action and keeps every other
      field. The message is not stripped and does not depend on whether the
      preposition is set or the target resolves. */
  function ConstructNotificationMessage(n: Notification, live: Registry, action: Action): (r: Notification)
    ensures r.receiver == n.receiver && r.sender == n.sender
    ensures r.targetRef == n.targetRef && r.isRead == n.isRead
    ensures r.message == NotificationText(UserDisplay(action.user), action.actionType.verb,
                                          action.actionType.preposition, Display(live, action.targetRef))
  {
    n.(message := NotificationText(UserDisplay(action.user), action.actionType.verb,
                                   action.actionType.preposition, Display(live, action.targetRef)))
  }

  /** The notification always names the user first and always contains
      " you ", the rendered preposition and the rendered target. */
  lemma NotificationMentions(u: string, verb: string, prep: Option<string>, t: string)
    ensures u <= NotificationText(u, verb, prep, t)
    ensures Contains(NotificationText(u, verb, prep, t), " you ")
    ensures Contains(NotificationText(u, verb, prep, t), PyStr(prep))
    ensures Contains(NotificationText(u, verb, prep, t), t)
  {
    var m := NotificationText(u, verb, prep, t);
    assert m == (u + " has " + verb) + " you " + (PyStr(prep) + " " + t);
    ContainsMiddle(u + " has " + verb, " you ", PyStr(prep) + " " + t);
    assert m == (u + " has " + verb + " you ") + PyStr(prep) + (" " + t);
    ContainsMiddle(u + " has " + verb + " you ", PyStr(prep), " " + t);
    assert m == (u + " has " + verb + " you " + PyStr(prep) + " ") + t + [];
    ContainsMiddle(u + " has " + verb + " you " + PyStr(prep) + " ", t, []);
  }

  /** With a preposition and a resolving target, the notification is the
      action message with "you" in place of the action object. */
  lemma NotificationIsActionAddressedToYou(u: string, verb: string, prep: Option<string>, t: string)
    requires Truthy(prep)
    requires u != [] && !IsSpace(u[0])
    requires t != [] && !IsSpace(t[|t| - 1])
    ensures NotificationText(u, verb, prep, t) == RenderAction(u, verb, "you", prep, Some(t))
  {
    RenderActionTargetBranch(u, verb, "you", prep, t);
  }

  /** Without a preposition the two templates part ways: the action message
      reads "U has V None you" while the notification still appends
      " None T". */
  lemma TemplatesDivergeWithoutPreposition(u: string, verb: string, t: string)
    requires u != [] && !IsSpace(u[0])
    ensures RenderAction(u, verb, "you", None, Some(t)) == u + " has " + verb + " None you"
    ensures NotificationText(u, verb, None, t) == u + " has " + verb + " you None " + t
    ensures NotificationText(u, verb, None, t) != RenderAction(u, verb, "you", None, Some(t))
  {
    RenderActionShowsNone(u, verb, "you", Some(t));
    assert " you " + "None" + " " == " you None ";
    assert NotificationText(u, verb, None, t) == (u + " has " + verb) + (" you " + "None" + " ") + t;
    assert |NotificationText(u, verb, None, t)| == |u| + 5 + |verb| + 10 + |t|;
  }

  /** A notification built for a freshly recorded action whose target still
      exists names that target by its display form. */
  lemma NotificationForRecordedAction(s: Store, user: Option<User>, actionObject: Entity, actionKey: string,
                                      target: Entity, n: Notification)
    requires NewAction(s, user, actionObject, actionKey, Some(target)).outcome.Ok?
    requires target in s.live
    ensures var a := NewAction(s, user, actionObject, actionKey, Some(target)).outcome.value;
            ConstructNotificationMessage(n, s.live, a).message
              == UserDisplay(user) + " has " + a.actionType.verb + " you " + PyStr(a.actionType.preposition)
                 + " " + s.live[target]
  {
    var a := NewAction(s, user, actionObject, actionKey, Some(target)).outcome.value;
    assert a.targetRef == Some(RefOf(target));
    DisplayRefOf(s.live, target);
  }
}

=== FILE: project_access.dfy ===
/** `has_access_project(redirect_url, klass)` (apps/projects/decorators.py):
    the decision its inner `_control` makes before the wrapped view runs. */
module ProjectAccess {
  import opened Results
  import opened Text
  import opened Decimal
  import opened Entities

  /** A row of `klass` as far as the guard looks at it: its primary key and,
      for tasks and discussions, the id of the project it belongs to. */
  datatype Record = Record(id: nat, project: Option<nat>)

  /** `klass.objects` for every class: rows by integer primary key. */
  type ObjectStore = map<(ModelClass, int), Record>

  /** Every row is stored under its own primary key. */
  predicate WellKeyed(objects: ObjectStore) {
    forall key :: key in objects ==> objects[key].id == key.1
  }

  /** Exceptions `_control` raises: with no class, `id_key` is never bound or
      the lookup is asked to search no class; with a class, the pk filter
      calls `int()` on a value that is not an integer and gets ValueError. */
  datatype AccessError = UnboundIdKey | NoModelClass | InvalidPk

  /** What `_control` returns: the 404 of `get_object_or_404`, the redirect,
      or the wrapped view called with the chosen pk and the object. */
  datatype Outcome = NotFound | Redirect(url: string) | Call(pk: string, obj: Record) | Raised(error: AccessError)

  /** `klass.__name__.lower() + '_id'`. */
  function IdKey(c: ModelClass): (r: string)
    ensures |r| == |ClassName(c)| + 3
    ensures r[|ClassName(c)|..] == "_id"
    ensures forall i :: 0 <= i < |ClassName(c)| ==> !IsUpper(r[i]) && LowerChar(r[i]) == LowerChar(ClassName(c)[i])
  {
    Lower(ClassName(c)) + "_id"
  }

  /** `pk or kwargs.get(id_key)`: a truthy positional pk wins; otherwise the
      keyword argument named by the id key, if there is one. */
  function SelectPk(pk: Option<string>, kwargs: map<string, string>, idKey: string): (r: Option<string>)
    ensures Truthy(pk) ==> r == pk
    ensures !Truthy(pk) ==> (r.Some? <==> idKey in kwargs)
    ensures !Truthy(pk) && idKey in kwargs ==> r == Some(kwargs[idKey])
  {
    if Truthy(pk) then pk
    else if idKey in kwargs then Some(kwargs[idKey])
    else None
  }

  /** The membership rule, stated per class: a project must be one of the
      user's projects, a task or discussion must belong to one, anything else
      is unrestricted. */
  function MayAccess(c: ModelClass, obj: Record, projects: set<nat>): (r: bool)
    ensures r <==> (c == Project ==> obj.id in projects)
                   && (c == Task || c == Discussion ==> obj.project.Some? && obj.project.value in projects)
  {
    match c
    case Project => obj.id in projects
    case Task => obj.project.Some? && obj.project.value in projects
    case Discussion => obj.project.Some? && obj.project.value in projects
    case Organization => true
    case OtherClass(_) => true
  }

  /** `get_object_or_404(klass, pk=pk)`: the primary-key filter converts the
      value with `int()`, which raises ValueError on anything that is not an
      integer (the empty string included); `pk=None` matches no row; a row
      found is returned and a missing one is the 404, here `Ok(None)`. */
  function Lookup(objects: ObjectStore, c: ModelClass, pk: Option<string>): (r: Result<Option<Record>, AccessError>)
    ensures r.Err? <==> pk.Some? && PyInt(pk.value).None?
    ensures r.Err? ==> r.error == InvalidPk
    ensures r.Ok? && r.value.Some? <==> pk.Some? && PyInt(pk.value).Some? && (c, PyInt(pk.value).value) in objects
    ensures r.Ok? && r.value.Some? ==> r.value.value == objects[(c, PyInt(pk.value).value)]
  {
    match pk
    case None => Ok(None)
    case Some(k) =>
      match PyInt(k)
      case None => Err(InvalidPk)
      case Some(n) => if (c, n) in objects then Ok(Some(objects[(c, n)])) else Ok(None)
  }

  /** `_control(request, pk, **kwargs)` with the user's projects given as a
      set of project ids. */
  function Control(klass: Option<ModelClass>, redirectUrl: string, pk: Option<string>,
                   kwargs: map<string, string>, objects: ObjectStore, projects: set<nat>): (r: Outcome)
    ensures klass.None? ==> r.Raised? && (r == Raised(UnboundIdKey) <==> !Truthy(pk))
                            && (r == Raised(NoModelClass) <==> Truthy(pk))
    ensures klass.Some? ==>
      var key := SelectPk(pk, kwargs, IdKey(klass.value));
      var found := Lookup(objects, klass.value, key);
      && (r.Raised? <==> key.Some? && PyInt(key.value).None?)
      && (r.Raised? ==> r == Raised(InvalidPk))
      && (r.NotFound? <==> found == Ok(None))
      && (found.Ok? && found.value.Some? ==>
            var obj := found.value.value;
            && (r.Redirect? <==> !MayAccess(klass.value, obj, projects))
            && (r.Call? <==> MayAccess(klass.value, obj, projects))
            && (r.Call? ==> r == Call(key.value, obj)))
    ensures r.Redirect? ==> r.url == redirectUrl
  {
    match klass
    case None => if Truthy(pk) then Raised(NoModelClass) else Raised(UnboundIdKey)
    case Some(c) =>
      var key := SelectPk(pk, kwargs, IdKey(c));
      match Lookup(objects, c, key)
      case Err(e) => Raised(e)
      case Ok(None) => NotFound
      case Ok(Some(obj)) =>
        if c == Project then
          if obj.id !in projects then Redirect(redirectUrl) else Call(key.value, obj)
        else if c == Task || c == Discussion then
          if obj.project.None? || obj.project.value !in projects then Redirect(redirectUrl) else Call(key.value, obj)
        else
          Call(key.value, obj)
  }

  /** The guarded view runs exactly when the object exists and the user may
      access it, and then it receives that object and the pk it was found
      by. */
  lemma CallIffAllowed(c: ModelClass, redirectUrl: string, pk: Option<string>,
                       kwargs: map<string, string>, objects: ObjectStore, projects: set<nat>)
    ensures var r := Control(Some(c), redirectUrl, pk, kwargs, objects, projects);
            var key := SelectPk(pk, kwargs, IdKey(c));
            r.Call? <==> && key.Some? && PyInt(key.value).Some?
                         && (c, PyInt(key.value).value) in objects
                         && MayAccess(c, objects[(c, PyInt(key.value).value)], projects)
  {
  }

  /** Gaining projects never takes access away. */
  lemma MayAccessMonotone(c: ModelClass, obj: Record, p1: set<nat>, p2: set<nat>)
    requires p1 <= p2
    ensures MayAccess(c, obj, p1) ==> MayAccess(c, obj, p2)
  {
  }

  /** With a well-keyed store, a project view runs exactly when the chosen pk
      is the key of one of the user's projects, and the project passed to it
      has that key. */
  lemma ProjectCallNamesMemberPk(redirectUrl: string, pk: Option<string>, kwargs: map<string, string>,
                                 objects: ObjectStore, projects: set<nat>)
    requires WellKeyed(objects)
    ensures var r := Control(Some(Project), redirectUrl, pk, kwargs, objects, projects);
            r.Call? ==> PyInt(r.pk) == Some(r.obj.id as int) && r.obj.id in projects
  {
    var r := Control(Some(Project), redirectUrl, pk, kwargs, objects, projects);
    if r.Call? {
      var key := SelectPk(pk, kwargs, IdKey(Project));
      CallIffAllowed(Project, redirectUrl, pk, kwargs, objects, projects);
      var n := PyInt(key.value).value;
      assert r == Call(key.value, objects[(Project, n)]);
      assert objects[(Project, n)].id == n;
    }
  }

  /** A project the user belongs to is reached by the decimal text of its id,
      the form a URL carries it in: the view runs on that project. */
  lemma ProjectReachableById(redirectUrl: string, n: nat, kwargs: map<string, string>,
                             objects: ObjectStore, projects: set<nat>)
    requires WellKeyed(objects)
    requires (Project, n as int) in objects && n in projects
    ensures Control(Some(Project), redirectUrl, Some(NatToString(n)), kwargs, objects, projects)
            == Call(NatToString(n), objects[(Project, n as int)])
  {
    PyIntFormatRoundTrip(n);
  }

  /** The id keys of the three project classes are "project_id", "task_id"
      and "discussion_id". */
  lemma ProjectIdKey()
    ensures IdKey(Project) == "project_id"
    ensures IdKey(Task) == "task_id"
    ensures IdKey(Discussion) == "discussion_id"
  {
    assert Lower("Project") == "project";
    assert Lower("Task") == "task";
    assert Lower("Discussion") == "discussion";
  }

  /** Two classes whose names differ only in letter case share an id key. */
  lemma IdKeyCaseInsensitive(c1: ModelClass, c2: ModelClass)
    requires |ClassName(c1)| == |ClassName(c2)|
    requires forall i :: 0 <= i < |ClassName(c1)| ==> LowerChar(ClassName(c1)[i]) == LowerChar(ClassName(c2)[i])
    ensures IdKey(c1) == IdKey(c2)
  {
    var k1 := IdKey(c1);
    var k2 := IdKey(c2);
    forall i | 0 <= i < |k1| ensures k1[i] == k2[i] {
      if i >= |ClassName(c1)| {
        assert k1[|ClassName(c1)|..][i - |ClassName(c1)|] == k1[i];
        assert k2[|ClassName(c2)|..][i - |ClassName(c2)|] == k2[i];
      }
    }
  }
}

=== FILE: results.dfy ===
/** Optional value and result datatypes: an optional value stands for a
    nullable column or argument, and a result is either a value or the
    exception the Python code raises. */
module Results {

  datatype Option<+T> = None | Some(value: T)

  datatype Result<+T, +E> = Ok(value: T) | Err(error: E)
}

=== FILE: text.dfy ===
/** The Python 2 string operations the models rely on: `unicode.strip()`,
    `"%s" % value`, truthiness of an optional string and `str.lower()`. */
module Text {
  import opened Results

  /** `unicode.isspace()` in Python 2.7: the characters `strip()` removes. */
  predicate IsSpace(c: char) {
    || c == ' '
    || ('\t' <= c <= '\r')
    || ('\U{1C}' <= c <= '\U{1F}')
    || c == '\U{85}' || c == '\U{A0}' || c == '\U{1680}' || c == '\U{180E}'
    || ('\U{2000}' <= c <= '\U{200A}')
    || c == '\U{2028}' || c == '\U{2029}' || c == '\U{202F}' || c == '\U{205F}'
    || c == '\U{3000}'
  }

  predicate AllSpace(s: string) {
    forall k :: 0 <= k < |s| ==> IsSpace(s[k])
  }

  /** Neither end of `s` is whitespace: what `strip()` guarantees. */
  predicate Trimmed(s: string) {
    s == [] || (!IsSpace(s[0]) && !IsSpace(s[|s| - 1]))
  }

  /** `s` is non-empty and begins and ends with a non-whitespace character. */
  predicate Solid(s: string) {
    s != [] && Trimmed(s)
  }

  /** Drops leading whitespace: the result is a suffix of `s`, everything
      dropped is whitespace, and the result does not start with whitespace. */
  function TrimLeft(s: string): (r: string)
    ensures |r| <= |s| && r == s[|s| - |r|..]
    ensures AllSpace(s[..|s| - |r|])
    ensures r == [] || !IsSpace(r[0])
  {
    if |s| > 0 && IsSpace(s[0]) then
      var t := s[1..];
      var r := TrimLeft(t);
      assert t[|t| - |r|..] == s[|s| - |r|..];
      assert s[..|s| - |r|] == [s[0]] + t[..|t| - |r|];
      r
    else
      s
  }

  /** Drops trailing whitespace: the result is a prefix of `s`, everything
      dropped is whitespace, and the result does not end with whitespace. */
  function TrimRight(s: string): (r: string)
    ensures |r| <= |s| && r == s[..|r|]
    ensures AllSpace(s[|r|..])
    ensures r == [] || !IsSpace(r[|r| - 1])
  {
    if |s| > 0 && IsSpace(s[|s| - 1]) then
      var t := s[..|s| - 1];
      var r := TrimRight(t);
      assert s[..|r|] == t[..|r|];
      assert s[|r|..] == t[|r|..] + [s[|s| - 1]];
      r
    else
      s
  }

  /** `unicode.strip()` with no argument. */
  function Strip(s: string): (r: string)
    ensures Trimmed(r)
    ensures |r| <= |s|
    ensures Trimmed(s) ==> r == s
  {
    TrimRight(TrimLeft(s))
  }

  /** `r` sits in `s` at offset `i`, and everything around it is whitespace. */
  predicate Margins(s: string, i: nat, r: string) {
    && i + |r| <= |s|
    && r == s[i..i + |r|]
    && AllSpace(s[..i])
    && AllSpace(s[i + |r|..])
  }

  /** What `strip()` removes is whitespace only: the result sits inside `s`
      between two all-whitespace margins. */
  lemma StripMargins(s: string)
    ensures Margins(s, |s| - |TrimLeft(s)|, Strip(s))
  {
    StripCutsTrimLeft(s);
    MarginsCompose(s, TrimLeft(s), Strip(s));
  }

  /** A prefix `r` of a suffix `t` of `s`, each cut along whitespace, sits in
      `s` between two whitespace margins. */
  lemma MarginsCompose(s: string, t: string, r: string)
    requires |t| <= |s| && t == s[|s| - |t|..] && AllSpace(s[..|s| - |t|])
    requires |r| <= |t| && r == t[..|r|] && AllSpace(t[|r|..])
    ensures Margins(s, |s| - |t|, r)
  {
    var i := |s| - |t|;
    assert t[..|r|] == s[i..i + |r|];
    assert t[|r|..] == s[i + |r|..];
  }

  /** Position `k` of the middle piece is position `p + k` of `s`. */
  lemma MarginsIndex(s: string, p: nat, r: string, k: nat)
    requires Margins(s, p, r) && p <= k < p + |r|
    ensures r[k - p] == s[k]
  {
  }

  /** A non-whitespace character of `s` lies in the middle piece. */
  lemma MarginsInterior(s: string, p: nat, r: string, k: nat)
    requires Margins(s, p, r) && k < |s| && !IsSpace(s[k])
    ensures p <= k < p + |r|
  {
    forall m | 0 <= m < p
      ensures IsSpace(s[m])
    {
      assert s[..p][m] == s[m];
    }
    forall m | p + |r| <= m < |s|
      ensures IsSpace(s[m])
    {
      assert s[p + |r|..][m - p - |r|] == s[m];
    }
  }

  /** `u` is what is left of `v` after a run of leading whitespace. */
  predicate LeftCut(v: string, u: string) {
    |u| <= |v| && u == v[|v| - |u|..] && AllSpace(v[..|v| - |u|])
  }

  lemma TrimLeftCut(s: string)
    ensures LeftCut(s, TrimLeft(s))
  {
  }

  /** Such a `u` holds every non-whitespace character of `v`, at its shifted
      position. */
  lemma CutIndex(v: string, u: string, k: nat)
    requires LeftCut(v, u) && k < |v| && !IsSpace(v[k])
    ensures |v| - |u| <= k && u[k - (|v| - |u|)] == v[k]
  {
    forall m | 0 <= m < |v| - |u|
      ensures IsSpace(v[m])
    {
      assert v[..|v| - |u|][m] == v[m];
    }
  }

  /** Such a `u` still holds a whitespace character that follows a
      non-whitespace one. */
  lemma CutKeepsInnerSpace(v: string, u: string, i: nat, j: nat)
    requires LeftCut(v, u) && i < j < |v| && !IsSpace(v[i]) && IsSpace(v[j])
    ensures |v| - |u| <= j && IsSpace(u[j - (|v| - |u|)])
  {
    CutIndex(v, u, i);
    assert u[j - (|v| - |u|)] == v[j];
  }

  /** `strip()` is `lstrip()` followed by cutting trailing whitespace. */
  lemma StripCutsTrimLeft(s: string)
    ensures |Strip(s)| <= |TrimLeft(s)|
    ensures Strip(s) == TrimLeft(s)[..|Strip(s)|]
    ensures AllSpace(TrimLeft(s)[|Strip(s)|..])
  {
    assert Strip(s) == TrimRight(TrimLeft(s));
  }

  /** A string of whitespace strips to nothing, from either side. */
  lemma TrimAllSpace(s: string)
    requires AllSpace(s)
    ensures TrimLeft(s) == [] && TrimRight(s) == []
  {
  }

  lemma StripIdempotent(s: string)
    ensures Strip(Strip(s)) == Strip(s)
  {
  }

  lemma {:induction false} TrimLeftStopsAt(a: string, rest: string)
    requires rest != [] && !IsSpace(rest[0])
    ensures TrimLeft(a + rest) == TrimLeft(a) + rest
    decreases |a|
  {
    if a == [] {
      assert a + rest == rest;
    } else if IsSpace(a[0]) {
      assert (a + rest)[1..] == a[1..] + rest;
      TrimLeftStopsAt(a[1..], rest);
    } else {
      assert (a + rest)[0] == a[0];
    }
  }

  lemma {:induction false} TrimRightStopsAt(rest: string, b: string)
    requires rest != [] && !IsSpace(rest[|rest| - 1])
    ensures TrimRight(rest + b) == rest + TrimRight(b)
    decreases |b|
  {
    if b == [] {
      assert rest + b == rest;
    } else if IsSpace(b[|b| - 1]) {
      assert (rest + b)[..|rest + b| - 1] == rest + b[..|b| - 1];
      TrimRightStopsAt(rest, b[..|b| - 1]);
    } else {
      assert (rest + b)[|rest + b| - 1] == b[|b| - 1];
    }
  }

  /** Stripping only touches the margins: a middle part that begins and ends
      with a non-whitespace character survives intact. */
  lemma StripKeepsCore(a: string, m: string, b: string)
    requires Solid(m)
    ensures Strip(a + m + b) == TrimLeft(a) + m + TrimRight(b)
  {
    var l := TrimLeft(a);
    assert TrimLeft(a + m + b) == l + m + b by {
      TrimLeftKeepsCore(a, m, b);
    }
    assert TrimRight(l + m + b) == l + m + TrimRight(b) by {
      assert (l + m)[|l + m| - 1] == m[|m| - 1];
      TrimRightStopsAt(l + m, b);
    }
  }

  /** Left trimming stops at the first non-whitespace character of `m`. */
  lemma TrimLeftKeepsCore(a: string, m: string, b: string)
    requires Solid(m)
    ensures TrimLeft(a + m + b) == TrimLeft(a) + m + b
  {
    AppendAssoc(a, m, b);
    AppendAssoc(TrimLeft(a), m, b);
    assert (m + b)[0] == m[0];
    TrimLeftStopsAt(a, m + b);
  }

  lemma AppendAssoc(a: string, m: string, b: string)
    ensures a + m + b == a + (m + b)
  {
  }

  /** A string that starts and ends with non-whitespace is its own strip. */
  lemma StripSolidEnds(a: string, m: string, b: string)
    requires a != [] && !IsSpace(a[0])
    requires b != [] && !IsSpace(b[|b| - 1])
    ensures Strip(a + m + b) == a + m + b
  {
    var s := a + m + b;
    assert s[0] == a[0];
    assert s[|s| - 1] == b[|b| - 1];
  }

  /** `t` occurs in `s` as a contiguous piece. */
  predicate Contains(s: string, t: string) {
    exists k :: 0 <= k <= |s| && t <= s[k..]
  }

  lemma ContainsMiddle(p: string, t: string, q: string)
    ensures Contains(p + t + q, t)
  {
    assert t <= (p + t + q)[|p|..];
  }

  lemma ContainsTransitive(s: string, t: string, u: string)
    requires Contains(s, t) && Contains(t, u)
    ensures Contains(s, u)
  {
    var k :| 0 <= k <= |s| && t <= s[k..];
    var j :| 0 <= j <= |t| && u <= t[j..];
    assert u <= s[k + j..];
  }

  /** `"%s" % x` for a nullable string: Python renders `None` as "None". */
  function PyStr(x: Option<string>): string {
    match x
    case None => "None"
    case Some(v) => v
  }

  /** Python truthiness of a nullable string: present and non-empty. */
  predicate Truthy(x: Option<string>) {
    x.Some? && x.value != ""
  }

  predicate IsUpper(c: char) {
    'A' <= c <= 'Z'
  }

  function LowerChar(c: char): char {
    if IsUpper(c) then (c as int + 32) as char else c
  }

  /** `str.lower()` on a Python 2 byte string: ASCII letters only. */
  function Lower(s: string): (r: string)
    ensures |r| == |s|
    ensures forall i :: 0 <= i < |s| ==> !IsUpper(r[i])
    ensures forall i :: 0 <= i < |s| ==> LowerChar(r[i]) == LowerChar(s[i])
    ensures forall i :: 0 <= i < |s| ==> !IsUpper(s[i]) ==> r[i] == s[i]
  {
    seq(|s|, i requires 0 <= i < |s| => LowerChar(s[i]))
  }
}
